=== FILE: README.md ===
# AI code reviewer service: a Dafny model of its two endpoints

This project models the decision logic of the review service's HTTP layer
(`service.py`). The service has two endpoints.

- **`/review`** works out where the diff comes from. It uses a raw diff, or
  resolves a GitHub pull request by cloning the repository into a temporary
  workspace and running four git commands there. The workspace is deleted
  on every exit path, with a handler that retries a failing entry once. The
  diff then goes to the rule backend and the AI backend, and the answers are
  assembled into one flat response. Whatever was raised is translated into
  the HTTP error detail.
- **`/inline-suggestion`** builds a prompt for one line of a file and asks a
  chat model. It returns the first choice's content stripped of surrounding
  whitespace, or fails when there is no content.

Every outside effect is a parameter of the model, so each operation is a pure
function returning a result and a trace of observable events. The parameters
are:

- the directory `mkdtemp` made;
- each git command's outcome;
- how each workspace entry responds to removal and `chmod`;
- the UTF-8 decoding;
- the two backends;
- the chat client;
- Python's `str()` of a `CalledProcessError`.

Modules:

- `Results` (`results.dfy`): `Option`, `Result` and `Outcome`.
- `Text` (`text.dfy`): the string operations the endpoints rely on. These are
  `"\n".join` with its inverse split, `str.strip` with Python's whitespace
  set, and `str(int)` with its inverse parse.
- `Effects` (`effects.dfy`): commands, trace events and the two kinds of
  raised error that the `except` clauses tell apart.
- `Git` (`git.dfy`): the four-command plan and the sequential, stop-at-first-
  failure way it runs.
- `Workspace` (`workspace.dfy`): `shutil.rmtree` with the retry-once error
  handler.
- `Review` (`review.dfy`): the `/review` endpoint.
- `Suggestion` (`suggestion.dfy`): the `/inline-suggestion` endpoint.

Three behaviours of the code differ from what a caller would reasonably
expect; the model follows the code:

- **Deletion errors mask other errors.** A caller would expect a failing git
  command to be reported as a git error. But the workspace is deleted in a
  `finally` block, so a deletion error replaces the exception in flight.
  When the workspace cannot be deleted, the caller sees the deletion's
  message, even after a git failure (`Review.DeletionFailureReported`).
- **Whitespace-only content succeeds.** A caller would expect a successful
  suggestion to hold some text. But the emptiness check runs before
  `strip()`, so whitespace-only content yields an empty suggestion
  (`Suggestion.SuggestionIsTrimmed`, `Suggestion.ExampleEmptyContent`).
- **Backend process errors get the git label.** The `except
  CalledProcessError` clause does not look at where the process was started.
  A `CalledProcessError` raised inside a backend is therefore also reported
  as "Git error: …" (`Review.BackendFailureReported`).

## Model

| member | source | states |
|---|---|---|
| Text.SplitLines | service.py:120 | splitting a text at newlines gives at least one line, none of which contains a newline, and joining them with `"\n"` gives the text back |
| Text.SplitJoin | service.py:120 | joining a non-empty list of newline-free lines with `"\n"` and splitting again gives the same list, so `"\n".join` loses no line boundary |
| Text.SplitAround | service.py:115-123 | splitting `a + "\n" + b` is splitting `a` followed by splitting `b`, which is how each `\n` of the prompt separates its parts |
| Text.Strip | service.py:135 | `strip()` keeps a contiguous infix whose surroundings are all whitespace, the result neither starts nor ends with whitespace, and it is empty exactly when the text is all whitespace |
| Text.StripIdempotent | service.py:135 | stripping a stripped text changes nothing |
| Text.IntToString | service.py:117 | the decimal rendering of an int is non-empty, made of digits with a leading `-` exactly for negative numbers, and has no leading zero: the first digit is `0` only in the rendering `0` itself |
| Text.IntRoundTrip | service.py:59 | parsing the decimal rendering of any int gives the int back, so the number put into the fetch refspec and the prompt is the requested one |
| Git.PlanNamesRequest | service.py:53-70 | the plan is four git commands: a clone of the URL into the workspace, run from outside it; then fetch, checkout and diff inside it. The fetch refspec parses back to the requested pull-request number and stores the local branch the checkout selects. The diff range parses back to the requested base |
| Git.RefspecNamesPull | service.py:59 | the fetch refspec parses back to exactly the requested pull-request number and ends with `:pr_branch` |
| Git.RangeNamesBase | service.py:68 | the diff range parses back to exactly the requested base branch |
| Git.PlanCommandsDistinct | service.py:53-70 | the four commands of the plan are pairwise different (clone, fetch, checkout, diff), so each can be told apart in a trace |
| Git.AttemptedIffPrefixSucceeded | service.py:53-71 | for commands that are pairwise different, command `k` is attempted exactly when every command before it succeeded |
| Git.RunSteps | service.py:53-71 | commands run in order and the trace is exactly the commands attempted, a command that could not be started included. Every command before the last attempted one succeeded. The run succeeds iff every command exits 0, and then yields the last command's output. Otherwise it stops at the first failing command and raises that command's error: `CalledProcessError` for a non-zero exit, the start error otherwise |
| Workspace.RemoveEntry | service.py:73-76 | an entry is removed iff the first removal succeeds or, after it fails, both the `chmod` and the single retry succeed. The trace is pinned event by event: one successful removal; or a failed removal followed by the failed `chmod`; or a failed removal, the entry made writable, and the single retry. Removal is called at most twice, and twice exactly when the first call failed and the `chmod` succeeded. A failure raises the `chmod`'s error or the retry's error |
| Workspace.Reached | service.py:76 | `rmtree` reaches every entry up to and including the first one that cannot be removed, and no further |
| Workspace.RemoveTree | service.py:76 | the deletion trace is the entry traces of the entries reached. It passes iff every entry is recoverable, and otherwise raises the error of the last entry reached |
| Workspace.EntryTracesAreRemovals | service.py:73-76 | every event of a deletion is a removal-phase event, and the deletion begins with the first entry's first removal call |
| Workspace.Release | service.py:72-76 | deleting the workspace always starts with a removal call and contains only removal-phase events. It passes iff every entry and the directory itself are recoverable, exactly when its last event is the removal of the directory |
| Review.InlineDiff | service.py:78 | the diff is the raw diff, or empty text when it is absent; it is empty exactly when the raw diff is not truthy |
| Review.ResolveDiff | service.py:49-78 | with a truthy URL and a non-zero number the diff is the remote resolution (against the requested base, `main` when none is named), including its errors; otherwise it is `diff or ""` with no effects and no error. The trace is non-empty exactly on the remote path with a workspace made |
| Review.RemoteDiff | service.py:49-76 | a failed `mkdtemp` raises with no trace. Otherwise the resolution succeeds iff every git command succeeds and the workspace can be deleted, and the diff is then the decoded output of the diff command. A failed deletion raises exactly the deletion's error, which is not a process failure, whatever the commands did. With a deletable workspace, a failed plan raises exactly the error of the first failing command: `CalledProcessError` for a non-zero exit, the start error otherwise |
| Review.WorkspaceLifecycle | service.py:50-76 | the workspace is created first and once. Then come the git commands, each the plan's command at its position. Then the deletion runs to the end of the trace, on every exit path: the event after the last command is a removal call, and the last event is a deletion event. No backend is called, and the last event is the directory's removal exactly when it can be deleted. Git command `k` is attempted exactly when commands `0..k-1` all succeeded: a failing command stops the run, and a successful plan runs all four |
| Review.PlanRunsPrefix | service.py:53-76 | within the whole resolution trace, deletion included, git command `k` appears exactly when commands `0..k-1` all succeeded |
| Review.ResolutionCallsNoBackend | service.py:48-78 | resolving the diff never calls a backend |
| Review.Assemble | service.py:93-99 | each category field holds the backend's list for that key, or `[]` when the key is missing; the AI comments and score pass through unchanged |
| Review.AssembleRoundTrip | service.py:93-99 | any response is rebuilt exactly from its own category lists and AI opinion, so assembly loses nothing |
| Review.AssembleIgnoresOtherKeys | service.py:93-96 | keys of the rule result other than the three categories do not affect the response |
| Review.AssembleMissingCategories | service.py:94-96 | a rule result with none of the categories yields three empty lists, not an error |
| Review.AnalysisFollowsResolution | service.py:80-99 | the backends see exactly the resolved diff: the rule backend first, the AI backend only after the rules succeeded, neither when resolution raised. A success is the assembly of the two answers |
| Review.AnalysisAfterDeletion | service.py:72-90 | no backend call comes before any workspace deletion event |
| Review.GitStepFailureReported | service.py:53-104 | when git command `k` fails and the workspace can be deleted, the detail is `"Git error: "` followed by that command's `CalledProcessError` text for a non-zero exit, and the start error's own message when the command could not be started. Only commands `0..k` ran, no backend ran, and the workspace removal is the last event |
| Review.RemoteStepFailure | service.py:53-76 | when command `k` fails and the workspace is deletable, the resolution raises that command's own error, commands after `k` never start, and the trace ends with the directory's removal |
| Review.BaseChoice | service.py:25 | the diff is taken against the base branch the request names, and against `origin/main...HEAD` when it names none |
| Review.InlineDiffReviewed | service.py:77-99 | a request without a pull request never touches git. The backends get the raw diff or empty text, and the request fails only if a backend raises |
| Review.BackendFailureReported | service.py:81-104 | after the diff is resolved, the first backend error becomes the detail: its message verbatim, or the git label for a `CalledProcessError`. The request succeeds iff neither backend raises |
| Review.DeletionFailureReported | service.py:72-104 | when the workspace cannot be deleted, the detail is the deletion's error message, even when a git command failed first, and no backend is called |
| Suggestion.PromptLines | service.py:115-123 | when the file name, the line and every line of the file contain no newline, the prompt read line by line is: the introduction; the quoted file name with the line number; the line indented by four spaces; the context heading; the file's lines (one empty line for an empty file); an empty line; the instruction |
| Suggestion.Suggest | service.py:124-136 | a suggestion is returned iff the first choice has non-empty content, and it is that content stripped. A client error raises its message, an empty choice list raises Python's index error, and missing or empty content is the no-suggestion error |
| Suggestion.SuggestionIsTrimmed | service.py:130-136 | when the client answers with a completion whose first choice has non-empty content, a suggestion is returned; it has no surrounding whitespace, is unchanged by stripping again, and is empty exactly when the content was all whitespace |
| Suggestion.SuggestAnswer | service.py:130-136 | for a single-choice answer, non-empty content gives its stripped text and missing or empty content gives the no-suggestion error |
| Suggestion.ExampleKeepsClean | service.py:135 | already-clean content comes back unchanged |
| Suggestion.ExampleTrimsPadding | service.py:135 | `"  x = 1\n"` comes back as `"x = 1"` |
| Suggestion.ExampleEmptyContent | service.py:133-135 | whitespace-only content gives an empty suggestion; missing or empty content gives the no-suggestion error |

## Left out

- Process execution, `tempfile.mkdtemp` and the file system are I/O. They are parameters: each git command's outcome, the directory made or the error raised, and each entry's responses to removal and `chmod`. Uniqueness of the temporary directory, and concurrency between requests, are not modelled.
- The UTF-8 decoding with `errors="ignore"` (service.py:71) is a host function that is not modelled. It is documented as dropping undecodable bytes.
- `run_rule_checks` and `run_ai_review` (`reviewer.reviewer`) are not part of this model. They are uninterpreted functions that return a result or raise.
- The OpenAI client is a network call, modelled as a function from the chat request to a completion or an error. The API key read from the environment (service.py:114) is not modelled.
- YAML configuration loading (service.py:15) is not modelled. A missing `rules` or `ai_review` key raises `KeyError` in `review`; that is covered only as a backend raising. For the suggestion the `ai_review` section is an optional model and temperature.
- FastAPI routing, pydantic validation and HTTP status codes are not modelled. Errors are modelled as the detail string only.
- Suggestion.Suggest: the `HTTPException` raised for missing content (service.py:134) is caught again by `except Exception` and re-raised with `str()` of itself. That rendering belongs to the web framework, so the model stops at a `NoSuggestion` error rather than a detail string.
- Review.Detail: `str()` of a `CalledProcessError` comes from the Python library and is the `render` parameter.
- `ai_score` and the temperature are floats, modelled as `real`; no rounding is modelled.
- Suggestion.PromptLines: the line layout is stated only for a file name, line and file lines without newlines; a newline inside any of them splits it across prompt lines, which the model leaves uncharacterised.
- Both interpolated ints, `req.pr_number` (service.py:59) and `req.lineNumber` (service.py:117), are rendered with the decimal text of Python's `str(int)`; the interpolated strings render as themselves.
- Suggestion.ChatRequestFor: carries no contract of its own. It only fills the call's arguments (the prompt as the single user message, the configured model and temperature or `gpt-4o-mini` and `0.2`, at most 100 tokens), and the client that consumes them is a parameter.

=== FILE: effects.dfy ===
/** What a review request does to the outside world, as data: the processes
    it starts, the trace of observable events, and the two kinds of raised
    error the endpoint tells apart. */
module Effects {
  import opened Results

  newtype byte = x: int | 0 <= x < 256

  type Bytes = seq<byte>

  /** One external process: its argument vector and, when set, the working
      directory it runs in. */
  datatype Command = Command(argv: seq<string>, cwd: Option<string>)

  /** An observable step of a request, in the order it happens. */
  datatype Event =
    | Created(dir: string)          // the temporary workspace directory was made
    | Ran(cmd: Command)             // an external process was launched (or its launch failed)
    // A "removal call" is whichever call `rmtree` passes to its error handler:
    // unlinking or removing, but also listing, opening or stat-ing a directory.
    | Removed(path: string)         // a removal call on a workspace entry succeeded
    | RemoveFailed(path: string)    // a removal call on a workspace entry raised
    | MadeWritable(path: string)    // the entry's mode was set to owner-writable
    | ChmodFailed(path: string)     // setting that mode raised
    | RuleCheck(diff: string)       // the rule backend was called on this diff
    | AiReview(diff: string)        // the AI review backend was called on this diff
  {
    /** Events of the workspace deletion phase. */
    predicate IsRemoval()
    {
      Removed? || RemoveFailed? || MadeWritable? || ChmodFailed?
    }

    /** A removal call, successful or not. */
    predicate IsRemoveCall()
    {
      Removed? || RemoveFailed?
    }
  }

  /** A raised exception, as far as the endpoint's `except` clauses can tell:
      a `subprocess.CalledProcessError` (a process that exited non-zero under
      `check=True` or `check_output`) or any other exception with its message. */
  datatype Failure =
    | ProcessFailed(argv: seq<string>, code: int)
    | Raised(message: string)
}

=== FILE: git.dfy ===
/** The remote-diff plan: the four git commands that turn a pull request into
    unified-diff text, and the strictly sequential way they are run, where the
    first command that fails ends the run. */
module Git {
  import opened Results
  import opened Text
  import opened Effects

  /** The fixed local branch the pull request's head is fetched into. */
  const LocalBranch := "pr_branch"

  /** `git clone --depth 1 URL DIR`, started in the service's own directory. */
  function CloneCommand(url: string, dir: string): Command
  {
    Command(["git", "clone", "--depth", "1", url, dir], None)
  }

  /** `pull/N/head:pr_branch`: the pull request's head ref on the remote,
      stored as the local branch. */
  function PullRefspec(pr: int): string
  {
    "pull/" + IntToString(pr) + "/head:" + LocalBranch
  }

  function FetchCommand(pr: int, dir: string): Command
  {
    Command(["git", "fetch", "origin", PullRefspec(pr)], Some(dir))
  }

  function CheckoutCommand(dir: string): Command
  {
    Command(["git", "checkout", LocalBranch], Some(dir))
  }

  /** `origin/BASE...HEAD`: the three-dot range, i.e. the changes on HEAD since
      its merge base with the remote's base branch. */
  function BaseRange(base: string): string
  {
    "origin/" + base + "...HEAD"
  }

  function DiffCommand(base: string, dir: string): Command
  {
    Command(["git", "diff", BaseRange(base)], Some(dir))
  }

  /** The commands of one remote-diff resolution, in the order they run. */
  function Plan(url: string, pr: int, base: string, dir: string): seq<Command>
  {
    [CloneCommand(url, dir), FetchCommand(pr, dir), CheckoutCommand(dir), DiffCommand(base, dir)]
  }

  /** Reads the pull-request number back out of a fetch refspec. */
  function ParsePullRefspec(s: string): Option<int>
  {
    var head := "pull/";
    var tail := "/head:" + LocalBranch;
    if |s| >= |head| + |tail| && s[..|head|] == head && s[|s| - |tail|..] == tail
    then ParseInt(s[|head|..|s| - |tail|])
    else None
  }

  /** Reads the base branch back out of a three-dot range. */
  function ParseBaseRange(s: string): Option<string>
  {
    var head := "origin/";
    var tail := "...HEAD";
    if |s| >= |head| + |tail| && s[..|head|] == head && s[|s| - |tail|..] == tail
    then Some(s[|head|..|s| - |tail|])
    else None
  }

  /** The plan is four git invocations: the clone targets the workspace from
      outside it, every later command runs inside it, the fetch names exactly
      the requested pull request and stores it in the branch the checkout
      selects, and the diff is taken against exactly the requested base. */
  lemma PlanNamesRequest(url: string, pr: int, base: string, dir: string)
    ensures var p := Plan(url, pr, base, dir);
      && |p| == 4
      && (forall k :: 0 <= k < |p| ==> |p[k].argv| >= 3 && p[k].argv[0] == "git")
      && p[0].argv[1] == "clone" && p[0].cwd == None && p[0].argv[4] == url && p[0].argv[5] == dir
      && (forall k :: 1 <= k < |p| ==> p[k].cwd == Some(dir))
      && p[1].argv[1] == "fetch" && ParsePullRefspec(p[1].argv[3]) == Some(pr)
      && p[2].argv[1] == "checkout"
      && p[1].argv[3][|p[1].argv[3]| - |p[2].argv[2]| - 1..] == ":" + p[2].argv[2]
      && p[3].argv[1] == "diff" && ParseBaseRange(p[3].argv[2]) == Some(base)
  {
    RefspecNamesPull(pr);
    RangeNamesBase(base);
  }

  /** The fetch refspec names exactly the pull request `pr` and ends with the
      local branch. */
  lemma RefspecNamesPull(pr: int)
    ensures ParsePullRefspec(PullRefspec(pr)) == Some(pr)
    ensures var spec := PullRefspec(pr); |spec| > |LocalBranch| && spec[|spec| - |LocalBranch| - 1..] == ":" + LocalBranch
  {
    var n := IntToString(pr);
    var tail := "/head:" + LocalBranch;
    var spec := PullRefspec(pr);
    assert spec == "pull/" + n + tail;
    assert |tail| == 15;
    assert spec[..5] == "pull/";
    assert spec[|spec| - 15..] == tail;
    assert spec[5..|spec| - 15] == n;
    IntRoundTrip(pr);
    assert spec[|spec| - |LocalBranch| - 1..] == tail[5..];
  }

  /** The diff range names exactly the base branch `base`. */
  lemma RangeNamesBase(base: string)
    ensures ParseBaseRange(BaseRange(base)) == Some(base)
  {
    var range := BaseRange(base);
    assert range[7..|range| - 7] == base;
  }

  /** The four commands of a plan are all different. */
  lemma PlanCommandsDistinct(url: string, pr: int, base: string, dir: string)
    ensures var p := Plan(url, pr, base, dir);
      forall i, j :: 0 <= i < j < |p| ==> p[i] != p[j]
  {
    var p := Plan(url, pr, base, dir);
    assert p[0].argv[1] == "clone" && p[1].argv[1] == "fetch";
    assert p[2].argv[1] == "checkout" && p[3].argv[1] == "diff";
  }

  // ---- Running the plan ----

  /** What happened when a command was started: it exited with a status and
      printed `stdout`, or it could not be started at all (for instance the
      git executable or the working directory is missing). */
  datatype StepOutcome = Exited(code: int, stdout: Bytes) | NotStarted(message: string)

  /** A command succeeds when it starts and exits with status 0. */
  predicate Succeeds(c: Command, git: Command -> StepOutcome)
  {
    git(c).Exited? && git(c).code == 0
  }

  /** One command under `check=True` / `check_output`: a non-zero exit raises
      `CalledProcessError`, a failed start raises its own error. */
  function StepResult(c: Command, o: StepOutcome): Result<Bytes, Failure>
  {
    match o
    case Exited(code, out) => if code == 0 then Ok(out) else Err(ProcessFailed(c.argv, code))
    case NotStarted(m) => Err(Raised(m))
  }

  /** In a run of pairwise different commands, command `k` is attempted
      exactly when every command before it succeeded: a failure stops the
      run, and a success lets the next command start. */
  lemma AttemptedIffPrefixSucceeded(cmds: seq<Command>, git: Command -> StepOutcome, k: nat)
    requires k < |cmds|
    requires forall i, j :: 0 <= i < j < |cmds| ==> cmds[i] != cmds[j]
    ensures Ran(cmds[k]) in RunSteps(cmds, git).1 <==> forall j :: 0 <= j < k ==> Succeeds(cmds[j], git)
  {
    var r := RunSteps(cmds, git);
    if Ran(cmds[k]) in r.1 {
      var i :| 0 <= i < |r.1| && r.1[i] == Ran(cmds[k]);
      assert cmds[i] == cmds[k];
      assert i == k;
    }
    if forall j :: 0 <= j < k ==> Succeeds(cmds[j], git) {
      assert k < |r.1| by {
        if r.0.Err? {
          assert !Succeeds(cmds[|r.1| - 1], git);
        }
      }
      assert r.1[k] == Ran(cmds[k]);
    }
  }

  /** Runs `cmds` one after another, each only if all before it succeeded, and
      yields the last command's output. `git` gives each command's outcome.
      The trace records exactly the commands attempted, in order; the run stops
      at the first command that fails and yields that command's error. */
  function RunSteps(cmds: seq<Command>, git: Command -> StepOutcome): (r: (Result<Bytes, Failure>, seq<Event>))
    ensures |r.1| <= |cmds| && forall k :: 0 <= k < |r.1| ==> r.1[k] == Ran(cmds[k])
    ensures forall k :: 0 <= k < |r.1| - 1 ==> Succeeds(cmds[k], git)
    ensures r.0.Ok? <==> forall k :: 0 <= k < |cmds| ==> Succeeds(cmds[k], git)
    ensures r.0.Ok? ==> |r.1| == |cmds| && (|cmds| > 0 ==> r.0.value == git(cmds[|cmds| - 1]).stdout)
    ensures r.0.Err? ==>
      && |r.1| > 0
      && !Succeeds(cmds[|r.1| - 1], git)
      && r.0 == StepResult(cmds[|r.1| - 1], git(cmds[|r.1| - 1]))
  {
    if |cmds| == 0 then (Ok([]), [])
    else
      var first := StepResult(cmds[0], git(cmds[0]));
      if first.Err? then (first, [Ran(cmds[0])])
      else
        var rest := RunSteps(cmds[1..], git);
        assert forall k :: 1 <= k < |cmds| ==> cmds[k] == cmds[1..][k - 1];
        (if |cmds| == 1 then first else rest.0, [Ran(cmds[0])] + rest.1)
  }
}

=== FILE: results.dfy ===
/** Failure-carrying wrappers used throughout the model. */
module Results {

  /** A value that may be absent; Python's `Optional[...]` fields and `None`. */
  datatype Option<+T> = None | Some(value: T) {

    /** The carried value, or `default` when absent. */
    function GetOr(default: T): T {
      match this
      case Some(v) => v
      case None => default
    }
  }

  /** A computation that either produced a value or raised an error. */
  datatype Result<+T, +E> = Ok(value: T) | Err(error: E)

  /** A computation with no value of interest that either passed or raised. */
  datatype Outcome<+E> = Pass | Fail(error: E)
}

=== FILE: review.dfy ===
/** The `/review` endpoint: choose where the diff comes from, resolve a pull
    request's diff inside a temporary workspace that is deleted on every exit
    path, hand the diff to the rule and AI backends, assemble the flat
    response, and translate whatever was raised into the error detail. */
module Review {
  import opened Results
  import opened Effects
  import opened Git
  import opened Workspace

  /** The base branch a request names when it names none. */
  const DefaultBase := "main"

  /** A review request: a raw diff, or a repository URL and pull-request
      number, plus the base branch, which the request may leave out. */
  datatype ReviewRequest = ReviewRequest(diff: Option<string>, repoUrl: Option<string>, prNumber: Option<int>, base: Option<string>)

  /** The flat response: one findings list per rule category, then the AI
      review's comments and score. */
  datatype ReviewResponse = ReviewResponse(
    namingConvention: seq<string>,
    complexity: seq<string>,
    security: seq<string>,
    aiComments: seq<string>,
    aiScore: real)

  /** The base branch the request is reviewed against: the one it names, or
      the field's default when it names none. */
  function BaseBranch(req: ReviewRequest): string
  {
    req.base.GetOr(DefaultBase)
  }

  // ---- Where the diff comes from ----

  /** Python truthiness of an optional string: present and non-empty. */
  predicate TruthyText(s: Option<string>)
  {
    s.Some? && s.value != ""
  }

  /** Python truthiness of an optional int: present and non-zero. */
  predicate TruthyInt(n: Option<int>)
  {
    n.Some? && n.value != 0
  }

  /** `req.repo_url and req.pr_number`: the pull request is fetched only for a
      non-empty URL together with a non-zero number. */
  predicate UsesRemote(req: ReviewRequest)
  {
    TruthyText(req.repoUrl) && TruthyInt(req.prNumber)
  }

  /** `req.diff or ""`: the raw diff, with an absent one read as empty text. */
  function InlineDiff(diff: Option<string>): (r: string)
    ensures r == diff.GetOr("")
    ensures r == "" <==> !TruthyText(diff)
  {
    if TruthyText(diff) then diff.value else ""
  }

  // ---- Resolving a pull request ----

  /** Everything the host contributes to one remote resolution: the temporary
      directory `mkdtemp` made (or the error it raised), each git command's
      outcome, how each workspace entry and the directory itself respond to
      deletion, and the lenient UTF-8 decoding of the diff output (undecodable
      bytes are dropped). */
  datatype Host = Host(
    workspace: Result<string, string>,
    git: Command -> StepOutcome,
    contents: seq<Entry>,
    root: Attempts,
    decode: Bytes -> string)

  /** Every git command of the plan exits with status 0. */
  predicate PlanSucceeds(url: string, pr: int, base: string, dir: string, git: Command -> StepOutcome)
  {
    forall k :: 0 <= k < 4 ==> Succeeds(Plan(url, pr, base, dir)[k], git)
  }

  /** The workspace can be deleted completely: every entry and the directory
      itself are removed, if need be by the handler's single retry. */
  predicate Deletable(host: Host, dir: string)
  {
    (forall k :: 0 <= k < |host.contents| ==> Recoverable(host.contents[k].attempts)) && Recoverable(host.root)
  }

  /** The remote branch of `review`: make the workspace, run the plan in it,
      and delete it in the `finally` block. A deletion error raised in the
      `finally` block replaces whatever the plan produced, as Python's
      `finally` does. */
  function RemoteDiff(url: string, pr: int, base: string, host: Host): (r: (Result<string, Failure>, seq<Event>))
    ensures host.workspace.Err? ==> r == (Err(Raised(host.workspace.error)), [])
    ensures host.workspace.Ok? ==>
      var dir := host.workspace.value;
      && (r.0.Ok? <==> PlanSucceeds(url, pr, base, dir, host.git) && Deletable(host, dir))
      && (r.0.Ok? ==> host.git(DiffCommand(base, dir)).Exited? && r.0.value == host.decode(host.git(DiffCommand(base, dir)).stdout))
      && (!Deletable(host, dir) ==> r.0.Err? && r.0.error.Raised?)
      && (!Deletable(host, dir) ==> r.0 == Err(Release(dir, host.contents, host.root).0.error))
      && (Deletable(host, dir) && !PlanSucceeds(url, pr, base, dir, host.git) ==>
            r.0 == Err(RunSteps(Plan(url, pr, base, dir), host.git).0.error))
  {
    match host.workspace
    case Err(m) => (Err(Raised(m)), [])
    case Ok(dir) =>
      var plan := Plan(url, pr, base, dir);
      var run := RunSteps(plan, host.git);
      var cleanup := Release(dir, host.contents, host.root);
      var body := if run.0.Ok? then Ok(host.decode(run.0.value)) else Err(run.0.error);
      (if cleanup.0.Fail? then Err(cleanup.0.error) else body, [Created(dir)] + run.1 + cleanup.1)
  }

  /** The workspace's life in the trace of a remote resolution: it is created
      first and only once; then come the git commands, each the plan's command
      at that position; then the deletion, which is present on every exit
      path and runs to the end of the trace. The last event is the removal of
      the workspace directory exactly when the workspace can be deleted. */
  lemma WorkspaceLifecycle(url: string, pr: int, base: string, host: Host)
    requires host.workspace.Ok?
    ensures var dir := host.workspace.value; var t := RemoteDiff(url, pr, base, host).1;
      && |t| >= 3 && t[0] == Created(dir) && t[1] == Ran(CloneCommand(url, dir))
      && (forall k :: 1 <= k < |t| ==> !t[k].Created?)
      && (forall k :: 1 <= k < |t| && t[k].Ran? ==> k <= 4 && t[k] == Ran(Plan(url, pr, base, dir)[k - 1]))
      && (forall k :: 1 <= k < |t| && !t[k].Ran? ==> t[k].IsRemoval())
      && (forall i, j :: 0 <= i < j < |t| && t[i].IsRemoval() ==> t[j].IsRemoval())
      && (forall k :: 1 <= k < |t| - 1 && t[k].Ran? && !t[k + 1].Ran? ==> t[k + 1].IsRemoveCall())
      && t[|t| - 1].IsRemoval()
      && (forall k :: 0 <= k < |t| ==> !t[k].RuleCheck? && !t[k].AiReview?)
      && (t[|t| - 1] == Removed(dir) <==> Deletable(host, dir))
    ensures var t := RemoteDiff(url, pr, base, host).1; var p := Plan(url, pr, base, host.workspace.value);
      forall k :: 0 <= k < 4 ==> (Ran(p[k]) in t <==> forall j :: 0 <= j < k ==> Succeeds(p[j], host.git))
  {
    var dir := host.workspace.value;
    var plan := Plan(url, pr, base, dir);
    var run := RunSteps(plan, host.git);
    var cleanup := Release(dir, host.contents, host.root);
    var t := RemoteDiff(url, pr, base, host).1;
    assert t == [Created(dir)] + run.1 + cleanup.1;
    assert |plan| == 4 && plan[0] == CloneCommand(url, dir);
    TraceShape(dir, plan, run.1, cleanup.1, t);
    PlanRunsPrefix(url, pr, base, host);
  }

  /** A command of the plan runs exactly when every command before it
      succeeded, whatever the deletion does afterwards. */
  lemma PlanRunsPrefix(url: string, pr: int, base: string, host: Host)
    requires host.workspace.Ok?
    ensures var t := RemoteDiff(url, pr, base, host).1; var p := Plan(url, pr, base, host.workspace.value);
      forall k :: 0 <= k < 4 ==> (Ran(p[k]) in t <==> forall j :: 0 <= j < k ==> Succeeds(p[j], host.git))
  {
    var dir := host.workspace.value;
    var plan := Plan(url, pr, base, dir);
    var run := RunSteps(plan, host.git);
    var cleanup := Release(dir, host.contents, host.root);
    var t := RemoteDiff(url, pr, base, host).1;
    assert t == [Created(dir)] + run.1 + cleanup.1;
    PlanCommandsDistinct(url, pr, base, dir);
    forall k | 0 <= k < 4
      ensures Ran(plan[k]) in t <==> forall j :: 0 <= j < k ==> Succeeds(plan[j], host.git)
    {
      AttemptedIffPrefixSucceeded(plan, host.git, k);
      CommandsInTrace(dir, run.1, cleanup.1, t, plan[k]);
    }
  }

  /** Only the command phase of such a trace holds commands. */
  lemma CommandsInTrace(dir: string, ran: seq<Event>, removal: seq<Event>, t: seq<Event>, c: Command)
    requires forall k :: 0 <= k < |removal| ==> removal[k].IsRemoval()
    requires t == [Created(dir)] + ran + removal
    ensures Ran(c) in t <==> Ran(c) in ran
  {
    assert forall k :: 1 <= k <= |ran| ==> t[k] == ran[k - 1];
    assert forall k :: |ran| < k < |t| ==> t[k] == removal[k - |ran| - 1];
    if Ran(c) in t {
      var i :| 0 <= i < |t| && t[i] == Ran(c);
      assert 1 <= i <= |ran|;
      assert ran[i - 1] == Ran(c);
    }
    if Ran(c) in ran {
      var i :| 0 <= i < |ran| && ran[i] == Ran(c);
      assert t[i + 1] == Ran(c);
    }
  }

  /** The shape of a trace made of a creation, some commands of a plan in
      order, and a non-empty deletion phase. */
  lemma TraceShape(dir: string, plan: seq<Command>, ran: seq<Event>, removal: seq<Event>, t: seq<Event>)
    requires 1 <= |ran| <= |plan| && forall k :: 0 <= k < |ran| ==> ran[k] == Ran(plan[k])
    requires |removal| > 0 && removal[0].IsRemoveCall() && forall k :: 0 <= k < |removal| ==> removal[k].IsRemoval()
    requires t == [Created(dir)] + ran + removal
    ensures |t| >= 3 && t[0] == Created(dir) && t[1] == Ran(plan[0])
    ensures forall k :: 1 <= k < |t| ==> !t[k].Created?
    ensures forall k :: 1 <= k < |t| && t[k].Ran? ==> k <= |ran| <= |plan| && t[k] == Ran(plan[k - 1])
    ensures forall k :: 1 <= k < |t| && !t[k].Ran? ==> t[k].IsRemoval()
    ensures forall k :: 0 <= k < |t| ==> !t[k].RuleCheck? && !t[k].AiReview?
    ensures forall i, j :: 0 <= i < j < |t| && t[i].IsRemoval() ==> t[j].IsRemoval()
    ensures forall k :: 1 <= k < |t| - 1 && t[k].Ran? && !t[k + 1].Ran? ==> k == |ran| && t[k + 1].IsRemoveCall()
    ensures t[|t| - 1] == removal[|removal| - 1] && t[|t| - 1].IsRemoval()
  {
    var n := |ran|;
    assert forall k :: 1 <= k <= n ==> t[k] == ran[k - 1];
    assert forall k :: n < k < |t| ==> t[k] == removal[k - n - 1];
  }

  /** `if req.repo_url and req.pr_number: ... else: diff_text = req.diff or ""`.
      The trace is non-empty exactly when the pull request is fetched (and
      the workspace could be made); otherwise the diff is the raw diff or
      empty text, and this is never an error. */
  function ResolveDiff(req: ReviewRequest, host: Host): (r: (Result<string, Failure>, seq<Event>))
    ensures !UsesRemote(req) ==> r == (Ok(req.diff.GetOr("")), [])
    ensures UsesRemote(req) ==> r == RemoteDiff(req.repoUrl.value, req.prNumber.value, BaseBranch(req), host)
    ensures |r.1| > 0 <==> UsesRemote(req) && host.workspace.Ok?
  {
    if UsesRemote(req) then
      var r := RemoteDiff(req.repoUrl.value, req.prNumber.value, BaseBranch(req), host);
      if host.workspace.Ok? then WorkspaceLifecycle(req.repoUrl.value, req.prNumber.value, BaseBranch(req), host); r
      else r
    else (Ok(InlineDiff(req.diff)), [])
  }

  // ---- Analysis and assembly ----

  /** What the rule backend is given: the diff and, for information, the
      request's repository, pull-request number and base branch. */
  datatype RuleCall = RuleCall(diff: string, repoUrl: Option<string>, prNumber: Option<int>, base: string)

  /** The AI backend's answer: narrative comments and a score. */
  datatype AiOpinion = AiOpinion(comments: seq<string>, score: real)

  /** The two analysis backends, each of which may raise. The rule backend
      answers with findings keyed by category name; keys other than the
      three categories may occur and are not used. */
  datatype Backends = Backends(
    rules: RuleCall -> Result<map<string, seq<string>>, Failure>,
    ai: string -> Result<AiOpinion, Failure>)

  const NamingConvention := "naming_convention"
  const Complexity := "complexity"
  const Security := "security"

  /** The rule categories the response has a field for. */
  const Categories: set<string> := {NamingConvention, Complexity, Security}

  /** `rules.get(key, [])`. */
  function Findings(rules: map<string, seq<string>>, key: string): seq<string>
  {
    if key in rules then rules[key] else []
  }

  /** The response field holding a category's findings. */
  function Category(resp: ReviewResponse, key: string): seq<string>
    requires key in Categories
  {
    if key == NamingConvention then resp.namingConvention
    else if key == Complexity then resp.complexity
    else resp.security
  }

  /** A response's findings as the rule backend would have reported them. */
  function FindingsOf(resp: ReviewResponse): map<string, seq<string>>
  {
    map[NamingConvention := resp.namingConvention, Complexity := resp.complexity, Security := resp.security]
  }

  /** Builds the response. Each category field holds the backend's list for
      that category when it reported one and is empty otherwise; the AI
      comments and score are passed through unchanged. */
  function Assemble(rules: map<string, seq<string>>, opinion: AiOpinion): (resp: ReviewResponse)
    ensures forall key :: key in Categories ==> Category(resp, key) == (if key in rules then rules[key] else [])
    ensures resp.aiComments == opinion.comments && resp.aiScore == opinion.score
  {
    ReviewResponse(
      Findings(rules, NamingConvention),
      Findings(rules, Complexity),
      Findings(rules, Security),
      opinion.comments,
      opinion.score)
  }

  /** Assembly loses nothing a response holds: every response is assembled
      back from its own findings and AI opinion. */
  lemma AssembleRoundTrip(resp: ReviewResponse)
    ensures Assemble(FindingsOf(resp), AiOpinion(resp.aiComments, resp.aiScore)) == resp
  {
  }

  /** Keys other than the three categories do not affect the response. */
  lemma AssembleIgnoresOtherKeys(rules: map<string, seq<string>>, opinion: AiOpinion)
    ensures Assemble(rules, opinion) == Assemble(map key | key in rules && key in Categories :: rules[key], opinion)
  {
  }

  /** A backend that reports none of the categories yields three empty lists
      rather than an error. */
  lemma AssembleMissingCategories(rules: map<string, seq<string>>, opinion: AiOpinion)
    requires rules.Keys !! Categories
    ensures var resp := Assemble(rules, opinion);
      resp.namingConvention == [] && resp.complexity == [] && resp.security == []
  {
  }

  /** The whole `try` block of `review`: resolve the diff, run the rule checks,
      then the AI review, then assemble. Each stage runs only if the one
      before it succeeded; the first error raised ends the request. */
  function ReviewFlow(req: ReviewRequest, host: Host, backends: Backends): (r: (Result<ReviewResponse, Failure>, seq<Event>))
  {
    var (diff, trace) := ResolveDiff(req, host);
    if diff.Err? then (Err(diff.error), trace)
    else
      var d := diff.value;
      var rules := backends.rules(RuleCall(d, req.repoUrl, req.prNumber, BaseBranch(req)));
      if rules.Err? then (Err(rules.error), trace + [RuleCheck(d)])
      else
        var ai := backends.ai(d);
        if ai.Err? then (Err(ai.error), trace + [RuleCheck(d), AiReview(d)])
        else (Ok(Assemble(rules.value, ai.value)), trace + [RuleCheck(d), AiReview(d)])
  }

  /** The backends see exactly the resolved diff, the rule backend first and
      the AI backend only after the rules succeeded, and neither runs when the
      resolution raised. A successful request is the assembly of the two
      answers. */
  lemma AnalysisFollowsResolution(req: ReviewRequest, host: Host, backends: Backends)
    ensures var diff := ResolveDiff(req, host).0; var r := ReviewFlow(req, host, backends);
      && (diff.Err? ==> r == (Err(diff.error), ResolveDiff(req, host).1))
      && (diff.Ok? ==>
           var call := RuleCall(diff.value, req.repoUrl, req.prNumber, BaseBranch(req));
           && r.1 == ResolveDiff(req, host).1 + (if backends.rules(call).Err? then [RuleCheck(diff.value)] else [RuleCheck(diff.value), AiReview(diff.value)])
           && (r.0.Ok? <==> backends.rules(call).Ok? && backends.ai(diff.value).Ok?)
           && (r.0.Ok? ==> r.0.value == Assemble(backends.rules(call).value, backends.ai(diff.value).value)))
  {
  }

  /** The workspace deletion has finished before either backend runs. */
  lemma AnalysisAfterDeletion(req: ReviewRequest, host: Host, backends: Backends)
    ensures var t := ReviewFlow(req, host, backends).1;
      forall i, j :: 0 <= i < j < |t| && t[j].IsRemoval() ==> !t[i].RuleCheck? && !t[i].AiReview?
  {
    var (diff, trace) := ResolveDiff(req, host);
    var t := ReviewFlow(req, host, backends).1;
    ResolutionCallsNoBackend(req, host);
    AnalysisFollowsResolution(req, host, backends);
    var after: seq<Event> := if diff.Err? then [] else t[|trace|..];
    assert t == trace + after;
    BackendsLast(trace, after, t);
  }

  /** Resolving the diff never calls a backend. */
  lemma ResolutionCallsNoBackend(req: ReviewRequest, host: Host)
    ensures var trace := ResolveDiff(req, host).1;
      forall k :: 0 <= k < |trace| ==> !trace[k].RuleCheck? && !trace[k].AiReview?
  {
    if UsesRemote(req) && host.workspace.Ok? {
      WorkspaceLifecycle(req.repoUrl.value, req.prNumber.value, BaseBranch(req), host);
    }
  }

  /** A trace without backend calls followed by one without removals. */
  lemma BackendsLast(before: seq<Event>, after: seq<Event>, t: seq<Event>)
    requires forall k :: 0 <= k < |before| ==> !before[k].RuleCheck? && !before[k].AiReview?
    requires forall k :: 0 <= k < |after| ==> !after[k].IsRemoval()
    requires t == before + after
    ensures forall i, j :: 0 <= i < j < |t| && t[j].IsRemoval() ==> !t[i].RuleCheck? && !t[i].AiReview?
  {
    assert forall k :: 0 <= k < |before| ==> t[k] == before[k];
    assert forall k :: |before| <= k < |t| ==> t[k] == after[k - |before|];
  }

  // ---- Error translation ----

  const GitErrorPrefix := "Git error: "

  /** The `except` clauses of `review`: a `CalledProcessError` is reported as
      a git error, checked first; any other exception reports its own message.
      `render` is Python's `str()` of a `CalledProcessError` with the given
      argument vector and exit status. */
  function Detail(f: Failure, render: (seq<string>, int) -> string): string
  {
    match f
    case ProcessFailed(argv, code) => GitErrorPrefix + render(argv, code)
    case Raised(m) => m
  }

  /** The endpoint: the flow's response, or an HTTP 500 with the translated
      detail. */
  function ReviewEndpoint(req: ReviewRequest, host: Host, backends: Backends, render: (seq<string>, int) -> string)
    : (r: Result<ReviewResponse, string>)
  {
    var (res, _) := ReviewFlow(req, host, backends);
    match res
    case Ok(resp) => Ok(resp)
    case Err(f) => Err(Detail(f, render))
  }

  /** The commands a remote request runs in workspace `dir`. */
  function RequestPlan(req: ReviewRequest, dir: string): seq<Command>
    requires UsesRemote(req)
  {
    Plan(req.repoUrl.value, req.prNumber.value, BaseBranch(req), dir)
  }

  /** A git command that fails ends the request with its own error: a
      non-zero exit is reported as a git error naming the command and its
      status, while a command that could not be started at all reports the
      start error's message without the git label. Either way the commands
      after it never start, the backends are not called, and the workspace is
      still deleted, last. */
  lemma GitStepFailureReported(req: ReviewRequest, host: Host, backends: Backends, render: (seq<string>, int) -> string, k: nat)
    requires UsesRemote(req) && host.workspace.Ok?
    requires k < 4 && forall j :: 0 <= j < k ==> Succeeds(RequestPlan(req, host.workspace.value)[j], host.git)
    requires !Succeeds(RequestPlan(req, host.workspace.value)[k], host.git)
    requires Deletable(host, host.workspace.value)
    ensures var failed := RequestPlan(req, host.workspace.value)[k]; var o := host.git(failed);
      ReviewEndpoint(req, host, backends, render)
        == Err(if o.Exited? then GitErrorPrefix + render(failed.argv, o.code) else o.message)
    ensures var t := ReviewFlow(req, host, backends).1;
      && |t| > k + 1 && t[k + 1] == Ran(RequestPlan(req, host.workspace.value)[k])
      && (forall i :: 0 <= i < |t| && t[i].Ran? ==> 1 <= i <= k + 1)
      && (forall i :: 0 <= i < |t| ==> !t[i].RuleCheck? && !t[i].AiReview?)
      && t[|t| - 1] == Removed(host.workspace.value)
  {
    RemoteStepFailure(req.repoUrl.value, req.prNumber.value, BaseBranch(req), host, k);
  }

  /** The remote resolution when command `k` of the plan fails and the
      workspace can be deleted: the command's own error, and a trace that
      stops running commands after it. */
  lemma RemoteStepFailure(url: string, pr: int, base: string, host: Host, k: nat)
    requires host.workspace.Ok?
    requires k < 4 && forall j :: 0 <= j < k ==> Succeeds(Plan(url, pr, base, host.workspace.value)[j], host.git)
    requires !Succeeds(Plan(url, pr, base, host.workspace.value)[k], host.git)
    requires Deletable(host, host.workspace.value)
    ensures var failed := Plan(url, pr, base, host.workspace.value)[k];
      RemoteDiff(url, pr, base, host).0 == Err(StepResult(failed, host.git(failed)).error)
    ensures var t := RemoteDiff(url, pr, base, host).1;
      && |t| > k + 1 && t[k + 1] == Ran(Plan(url, pr, base, host.workspace.value)[k])
      && (forall i :: 0 <= i < |t| && t[i].Ran? ==> 1 <= i <= k + 1)
      && (forall i :: 0 <= i < |t| ==> !t[i].RuleCheck? && !t[i].AiReview?)
      && t[|t| - 1] == Removed(host.workspace.value)
  {
    var dir := host.workspace.value;
    var plan := Plan(url, pr, base, dir);
    var run := RunSteps(plan, host.git);
    var cleanup := Release(dir, host.contents, host.root);
    assert run.0.Err?;
    assert |run.1| - 1 == k;
    var t := RemoteDiff(url, pr, base, host).1;
    assert t == [Created(dir)] + run.1 + cleanup.1;
    TraceShape(dir, plan, run.1, cleanup.1, t);
    assert t[k + 1] == run.1[k];
  }

  /** The diff is taken against the base branch the request names, and
      against `main` when it names none. */
  lemma BaseChoice(req: ReviewRequest, dir: string)
    requires UsesRemote(req)
    ensures ParseBaseRange(RequestPlan(req, dir)[3].argv[2]) == Some(if req.base.Some? then req.base.value else "main")
    ensures req.base.None? ==> RequestPlan(req, dir)[3].argv == ["git", "diff", "origin/main...HEAD"]
  {
    PlanNamesRequest(req.repoUrl.value, req.prNumber.value, BaseBranch(req), dir);
    if req.base.None? {
      assert RequestPlan(req, dir)[3] == DiffCommand("main", dir);
      assert "origin/" + "main" + "...HEAD" == "origin/main...HEAD";
    }
  }

  /** A raw diff, or no diff at all, is reviewed without touching git: the
      backends are given the raw diff or empty text, and the request fails
      only if a backend raises. With no diff and no pull request the request
      is still answered, for the empty diff. */
  lemma InlineDiffReviewed(req: ReviewRequest, host: Host, backends: Backends, render: (seq<string>, int) -> string)
    requires !UsesRemote(req)
    ensures var d := req.diff.GetOr(""); var call := RuleCall(d, req.repoUrl, req.prNumber, BaseBranch(req));
      && ReviewFlow(req, host, backends).1 == (if backends.rules(call).Err? then [RuleCheck(d)] else [RuleCheck(d), AiReview(d)])
      && (ReviewEndpoint(req, host, backends, render).Ok? <==> backends.rules(call).Ok? && backends.ai(d).Ok?)
      && (ReviewEndpoint(req, host, backends, render).Ok? ==>
            ReviewEndpoint(req, host, backends, render).value == Assemble(backends.rules(call).value, backends.ai(d).value))
    ensures req.diff.None? || req.diff == Some("") ==> ReviewFlow(req, host, backends).1[0] == RuleCheck("")
  {
    AnalysisFollowsResolution(req, host, backends);
  }

  /** After the diff is resolved, what a backend raises reaches the caller
      unchanged: its message verbatim, except that a `CalledProcessError`
      raised inside a backend is labelled as a git error too, because the
      `except` clause does not look at where the process was started. */
  lemma BackendFailureReported(req: ReviewRequest, host: Host, backends: Backends, render: (seq<string>, int) -> string)
    requires ResolveDiff(req, host).0.Ok?
    ensures var d := ResolveDiff(req, host).0.value;
      var rules := backends.rules(RuleCall(d, req.repoUrl, req.prNumber, BaseBranch(req)));
      var ai := backends.ai(d);
      var failure := if rules.Err? then Some(rules.error) else if ai.Err? then Some(ai.error) else None;
      && (failure.Some? && failure.value.Raised? ==> ReviewEndpoint(req, host, backends, render) == Err(failure.value.message))
      && (failure.Some? && failure.value.ProcessFailed? ==>
            ReviewEndpoint(req, host, backends, render) == Err(GitErrorPrefix + render(failure.value.argv, failure.value.code)))
      && (failure.None? <==> ReviewEndpoint(req, host, backends, render).Ok?)
  {
    AnalysisFollowsResolution(req, host, backends);
  }

  /** When the workspace cannot be deleted, the deletion error is what the
      caller sees, whatever the git commands did: Python's `finally` lets the
      new exception replace the one in flight, so even a git failure is then
      reported by the deletion's message, without the git label. */
  lemma DeletionFailureReported(req: ReviewRequest, host: Host, backends: Backends, render: (seq<string>, int) -> string)
    requires UsesRemote(req) && host.workspace.Ok?
    requires !Deletable(host, host.workspace.value)
    ensures var dir := host.workspace.value;
      var cleanup := Release(dir, host.contents, host.root);
      && cleanup.0.Fail? && cleanup.0.error.Raised?
      && ReviewEndpoint(req, host, backends, render) == Err(cleanup.0.error.message)
    ensures forall i :: 0 <= i < |ReviewFlow(req, host, backends).1| ==>
      !ReviewFlow(req, host, backends).1[i].RuleCheck? && !ReviewFlow(req, host, backends).1[i].AiReview?
  {
    var dir := host.workspace.value;
    var r := RemoteDiff(req.repoUrl.value, req.prNumber.value, BaseBranch(req), host);
    assert ResolveDiff(req, host) == r;
    assert r.0 == Err(Release(dir, host.contents, host.root).0.error) && r.0.error.Raised?;
    ResolutionCallsNoBackend(req, host);
  }
}

=== FILE: suggestion.dfy ===
/** The `/inline-suggestion` endpoint: build a prompt from one line and its
    file, ask the chat model, and return the first choice's content with the
    surrounding whitespace stripped, or fail when there is no content. */
module Suggestion {
  import opened Results
  import opened Text

  /** The line under review, its 1-based number and the whole file. The
      number is not checked against the file. */
  datatype SuggestionRequest = SuggestionRequest(fileName: string, line: string, lineNumber: int, fullFile: seq<string>)

  /** The `ai_review` section of the configuration, as far as this endpoint
      reads it; an absent section reads as both options absent. */
  datatype AiSettings = AiSettings(model: Option<string>, temperature: Option<real>)

  const DefaultModel := "gpt-4o-mini"
  const DefaultTemperature: real := 0.2
  /** The reply is capped at a one-line length. */
  const MaxTokens: nat := 100

  datatype ChatMessage = ChatMessage(role: string, content: string)

  /** One chat-completion call, as sent to the model. */
  datatype ChatRequest = ChatRequest(model: string, messages: seq<ChatMessage>, temperature: real, maxTokens: nat)

  /** The parts of the model's answer the endpoint reads. The message and its
      content may each be missing. */
  datatype Message = Message(content: Option<string>)
  datatype Choice = Choice(message: Option<Message>)
  datatype Completion = Completion(choices: seq<Choice>)

  /** Why no suggestion was returned: the model gave no usable content, or an
      exception was raised on the way (by the client call, or by indexing an
      empty list of choices), with its message. */
  datatype SuggestionError = NoSuggestion | Raised(message: string)

  const NoSuggestionMessage := "No suggestion returned from AI model."

  /** Python's message for indexing past the end of a list. */
  const IndexErrorMessage := "list index out of range"

  // The fixed texts are written in pieces only to keep the proofs about
  // their characters small; each is one text in the prompt.
  const Intro := "You are a senior " + "Python code reviewer."
  const ContextHeading := "Here is the complete " + "file context:"
  /** The closing instruction. */
  const Instruction := "Suggest an improved version " + "of the given line, optionally " + "with a helpful inline code "
    + "comment. Respond ONLY with " + "the suggested code."

  /** The line of the prompt that names the file, in quotes, and the line number. */
  function Target(req: SuggestionRequest): string
  {
    "Given the following " + "file named '" + req.fileName + "', review line " + IntToString(req.lineNumber) + ":"
  }

  /** The line under review, indented by four spaces. */
  function Quoted(req: SuggestionRequest): string
  {
    "    " + req.line
  }

  /** The prompt text. */
  function Prompt(req: SuggestionRequest): string
  {
    Intro + "\n" + (Target(req) + "\n" + (Quoted(req) + "\n" + (ContextHeading + "\n" + (JoinLines(req.fullFile) + "\n\n" + Instruction))))
  }

  /** Read line by line, the prompt is: the introduction; the file name in
      quotes with the line number; the line under review, indented; the
      heading; the file's lines one per line (a single empty line for an
      empty file); an empty line; the instruction. So nothing of the file
      context is lost or merged into a neighbouring line. */
  lemma PromptLines(req: SuggestionRequest)
    requires '\n' !in req.fileName && '\n' !in req.line
    requires forall k :: 0 <= k < |req.fullFile| ==> '\n' !in req.fullFile[k]
    ensures SplitLines(Prompt(req))
      == [Intro, Target(req), Quoted(req), ContextHeading]
         + (if |req.fullFile| == 0 then [""] else req.fullFile)
         + ["", Instruction]
  {
    assert '\n' !in IntToString(req.lineNumber);
    FixedTextsAreSingleLines();
    LayoutLines(Intro, Target(req), Quoted(req), ContextHeading, JoinLines(req.fullFile), Instruction);
    if |req.fullFile| == 0 {
      assert SplitLines("") == [""];
    } else {
      SplitJoin(req.fullFile);
    }
  }

  /** The line structure of the prompt's layout, for any texts in it. */
  lemma LayoutLines(intro: string, target: string, quoted: string, heading: string, body: string, instruction: string)
    requires '\n' !in intro && '\n' !in target && '\n' !in quoted && '\n' !in heading && '\n' !in instruction
    ensures SplitLines(intro + "\n" + (target + "\n" + (quoted + "\n" + (heading + "\n" + (body + "\n\n" + instruction)))))
      == [intro, target, quoted, heading] + SplitLines(body) + ["", instruction]
  {
    LayoutTail(body, instruction);
    LayoutHead(intro, target, quoted, heading, body + "\n\n" + instruction);
  }

  /** Four newline-free lines in front of any text. */
  lemma LayoutHead(intro: string, target: string, quoted: string, heading: string, rest: string)
    requires '\n' !in intro && '\n' !in target && '\n' !in quoted && '\n' !in heading
    ensures SplitLines(intro + "\n" + (target + "\n" + (quoted + "\n" + (heading + "\n" + rest))))
      == [intro, target, quoted, heading] + SplitLines(rest)
  {
    var r := SplitLines(rest);
    var s3 := heading + "\n" + rest;
    var s2 := quoted + "\n" + s3;
    var s1 := target + "\n" + s2;
    SplitCons(heading, rest);
    SplitCons(quoted, s3);
    assert SplitLines(s2) == [quoted, heading] + r;
    SplitCons(target, s2);
    assert SplitLines(s1) == [target, quoted, heading] + r;
    SplitCons(intro, s1);
  }

  /** The end of the prompt: the body, an empty line, the instruction. */
  lemma LayoutTail(body: string, instruction: string)
    requires '\n' !in instruction
    ensures SplitLines(body + "\n\n" + instruction) == SplitLines(body) + ["", instruction]
  {
    var tail := "" + "\n" + instruction;
    assert body + "\n\n" + instruction == body + "\n" + tail;
    SplitAround(body, tail);
    SplitCons("", instruction);
    SplitSingle(instruction);
  }

  /** None of the prompt's fixed texts contains a line break. */
  lemma FixedTextsAreSingleLines()
    ensures '\n' !in Intro && '\n' !in ContextHeading && '\n' !in Instruction
    ensures '\n' !in "Given the following " + "file named '" && '\n' !in "', review line "
  {
    IntroIsSingleLine();
    InstructionIsSingleLine();
    TargetTextsAreSingleLines();
  }

  lemma IntroIsSingleLine()
    ensures '\n' !in Intro && '\n' !in ContextHeading
  {
    assert forall c :: c in "You are a senior " ==> c != '\n';
    assert forall c :: c in "Python code reviewer." ==> c != '\n';
    assert forall c :: c in "Here is the complete " ==> c != '\n';
    assert forall c :: c in "file context:" ==> c != '\n';
  }

  lemma InstructionIsSingleLine()
    ensures '\n' !in Instruction
  {
    assert forall c :: c in "Suggest an improved version " ==> c != '\n';
    assert forall c :: c in "of the given line, optionally " ==> c != '\n';
    assert forall c :: c in "with a helpful inline code " ==> c != '\n';
    assert forall c :: c in "comment. Respond ONLY with " ==> c != '\n';
    assert forall c :: c in "the suggested code." ==> c != '\n';
  }

  lemma TargetTextsAreSingleLines()
    ensures '\n' !in "Given the following " + "file named '" && '\n' !in "', review line "
  {
    assert forall c :: c in "Given the following " ==> c != '\n';
    assert forall c :: c in "file named '" ==> c != '\n';
    assert forall c :: c in "', review line " ==> c != '\n';
  }

  /** A newline-free first line, then the rest. */
  lemma SplitCons(a: string, b: string)
    requires '\n' !in a
    ensures SplitLines(a + "\n" + b) == [a] + SplitLines(b)
  {
    SplitAround(a, b);
    SplitSingle(a);
  }

  /** The call made to the model: the prompt as the single user message, the
      configured model and temperature or their defaults, and the output cap. */
  function ChatRequestFor(req: SuggestionRequest, settings: AiSettings): ChatRequest
  {
    ChatRequest(settings.model.GetOr(DefaultModel), [ChatMessage("user", Prompt(req))], settings.temperature.GetOr(DefaultTemperature), MaxTokens)
  }

  /** `choice.message.content`, read with `getattr(..., None)` at each step. */
  function ContentOf(choice: Choice): Option<string>
  {
    if choice.message.Some? then choice.message.value.content else None
  }

  /** The endpoint's `try` block. `complete` is the chat client: it answers
      the request or raises with a message. A suggestion is returned exactly
      when the first choice has non-empty content, and it is that content
      stripped. The emptiness check is made before stripping, so content of
      whitespace only yields an empty suggestion, not an error. */
  function Suggest(req: SuggestionRequest, settings: AiSettings, complete: ChatRequest -> Result<Completion, string>)
    : (r: Result<string, SuggestionError>)
    ensures var reply := complete(ChatRequestFor(req, settings));
      && (r.Ok? <==> reply.Ok? && |reply.value.choices| > 0
                     && ContentOf(reply.value.choices[0]).Some? && ContentOf(reply.value.choices[0]).value != "")
      && (r.Ok? ==> r.value == Strip(ContentOf(reply.value.choices[0]).value))
      && (reply.Err? ==> r == Err(Raised(reply.error)))
      && (reply.Ok? && |reply.value.choices| == 0 ==> r == Err(Raised(IndexErrorMessage)))
      && (reply.Ok? && |reply.value.choices| > 0 && !r.Ok? ==> r == Err(NoSuggestion))
  {
    match complete(ChatRequestFor(req, settings))
    case Err(m) => Err(Raised(m))
    case Ok(completion) =>
      if |completion.choices| == 0 then Err(Raised(IndexErrorMessage))
      else
        var content := ContentOf(completion.choices[0]);
        if content.None? || content.value == "" then Err(NoSuggestion)
        else Ok(Strip(content.value))
  }

  /** When the first choice has non-empty content, a suggestion is returned.
      It carries no surrounding whitespace, is unchanged by stripping again,
      and is empty only when the model's content was all whitespace. */
  lemma SuggestionIsTrimmed(req: SuggestionRequest, settings: AiSettings, complete: ChatRequest -> Result<Completion, string>,
                             reply: Completion)
    requires complete(ChatRequestFor(req, settings)) == Ok(reply)
    requires |reply.choices| > 0 && ContentOf(reply.choices[0]).Some? && ContentOf(reply.choices[0]).value != ""
    ensures Suggest(req, settings, complete).Ok?
    ensures var s := Suggest(req, settings, complete).value;
      var content := ContentOf(reply.choices[0]).value;
      && (|s| > 0 ==> !IsSpace(s[0]) && !IsSpace(s[|s| - 1]))
      && (s == "" <==> AllSpace(content))
      && Strip(s) == s
  {
    var content := ContentOf(reply.choices[0]).value;
    assert Suggest(req, settings, complete).value == Strip(content);
    StrippedShape(content);
  }

  /** What stripping leaves of any text. */
  lemma StrippedShape(content: string)
    ensures var s := Strip(content);
      && (|s| > 0 ==> !IsSpace(s[0]) && !IsSpace(s[|s| - 1]))
      && (s == "" <==> AllSpace(content))
      && Strip(s) == s
  {
    StripIdempotent(content);
  }

  /** A model answer with the given content in its first choice. */
  function Answer(content: Option<string>): Completion
  {
    Completion([Choice(Some(Message(content)))])
  }

  /** An answer whose first choice carries `content`. */
  lemma SuggestAnswer(req: SuggestionRequest, settings: AiSettings, complete: ChatRequest -> Result<Completion, string>, content: Option<string>)
    requires complete(ChatRequestFor(req, settings)) == Ok(Answer(content))
    ensures content.Some? && content.value != "" ==> Suggest(req, settings, complete) == Ok(Strip(content.value))
    ensures content.None? || content.value == "" ==> Suggest(req, settings, complete) == Err(NoSuggestion)
  {
  }

  /** Content already free of surrounding whitespace comes back as it is
      (for instance `x = 1  # fixed spacing` as the suggestion for `x=1`). */
  lemma ExampleKeepsClean(req: SuggestionRequest, settings: AiSettings, complete: ChatRequest -> Result<Completion, string>)
    requires complete(ChatRequestFor(req, settings)) == Ok(Answer(Some("x = 1  # fixed spacing")))
    ensures Suggest(req, settings, complete) == Ok("x = 1  # fixed spacing")
  {
    SuggestAnswer(req, settings, complete, Some("x = 1  # fixed spacing"));
    StripClean();
  }

  lemma StripClean()
    ensures Strip("x = 1  # fixed spacing") == "x = 1  # fixed spacing"
  {
    var text := "x = 1  # fixed spacing";
    assert text[0] == 'x' && text[|text| - 1] == 'g';
    StripKeepsTrimmed(text);
  }

  /** Padded content comes back trimmed. */
  lemma ExampleTrimsPadding(req: SuggestionRequest, settings: AiSettings, complete: ChatRequest -> Result<Completion, string>)
    requires complete(ChatRequestFor(req, settings)) == Ok(Answer(Some("  x = 1\n")))
    ensures Suggest(req, settings, complete) == Ok("x = 1")
  {
    SuggestAnswer(req, settings, complete, Some("  x = 1\n"));
    StripPadded();
  }

  lemma StripPadded()
    ensures Strip("  x = 1\n") == "x = 1"
  {
    var padded := "  x = 1\n";
    var inner := "x = 1\n";
    assert padded[1..][1..] == inner;
    assert inner[0] == 'x' && !IsSpace(inner[0]);
    assert TrimStart(inner) == inner;
    assert TrimStart(padded) == inner;
    assert inner[..5] == "x = 1";
    assert "x = 1"[4] == '1' && !IsSpace("x = 1"[4]);
    assert TrimEnd("x = 1") == "x = 1";
    assert TrimEnd(inner) == "x = 1";
  }

  /** Whitespace-only content passes the emptiness check and comes back as an
      empty suggestion; missing or empty content is the no-suggestion error. */
  lemma ExampleEmptyContent(req: SuggestionRequest, settings: AiSettings, complete: ChatRequest -> Result<Completion, string>)
    ensures complete(ChatRequestFor(req, settings)) == Ok(Answer(Some(" \n"))) ==> Suggest(req, settings, complete) == Ok("")
    ensures complete(ChatRequestFor(req, settings)) == Ok(Answer(None)) ==> Suggest(req, settings, complete) == Err(NoSuggestion)
    ensures complete(ChatRequestFor(req, settings)) == Ok(Answer(Some(""))) ==> Suggest(req, settings, complete) == Err(NoSuggestion)
  {
    assert AllSpace(" \n");
  }
}

=== FILE: text.dfy ===
/** The few pieces of Python string behaviour the service relies on:
    `"\n".join`, splitting on newlines (the reading of a joined text),
    `str.isspace`/`str.strip`, and `str(int)` with a parser as its partner. */
module Text {
  import opened Results

  // ---- Lines ----

  /** `"\n".join(lines)`. */
  function JoinLines(lines: seq<string>): string
  {
    if |lines| == 0 then ""
    else if |lines| == 1 then lines[0]
    else lines[0] + "\n" + JoinLines(lines[1..])
  }

  /** `s.split("\n")`: the maximal newline-free pieces of `s`, in order.
      Joining them back gives `s`, so this is a right inverse of
      `JoinLines`; on non-empty lists of newline-free lines it is also a left
      inverse (`SplitJoin`). */
  function SplitLines(s: string): (r: seq<string>)
    ensures |r| >= 1
    ensures JoinLines(r) == s
    ensures forall k :: 0 <= k < |r| ==> '\n' !in r[k]
  {
    if |s| == 0 then [""]
    else if s[0] == '\n' then
      var rest := SplitLines(s[1..]);
      assert JoinLines([""] + rest) == "" + "\n" + JoinLines(rest);
      [""] + rest
    else
      var rest := SplitLines(s[1..]);
      var r := [[s[0]] + rest[0]] + rest[1..];
      assert s == [s[0]] + s[1..];
      if |rest| == 1 then r
      else
        assert JoinLines(rest) == rest[0] + "\n" + JoinLines(rest[1..]);
        assert r[1..] == rest[1..];
        r
  }

  /** A newline-free text is one line. */
  lemma {:induction false} SplitSingle(a: string)
    requires '\n' !in a
    ensures SplitLines(a) == [a]
  {
    if |a| > 0 {
      assert '\n' !in a[1..];
      SplitSingle(a[1..]);
      assert a == [a[0]] + a[1..];
    }
  }

  /** Splitting distributes over a newline: the lines of `a + "\n" + b`
      are the lines of `a` followed by the lines of `b`. */
  lemma {:induction false} SplitAround(a: string, b: string)
    ensures SplitLines(a + "\n" + b) == SplitLines(a) + SplitLines(b)
    decreases |a|
  {
    var s := a + "\n" + b;
    if |a| == 0 {
      assert s == "\n" + b;
      assert s[1..] == b;
    } else {
      assert s[0] == a[0];
      assert s[1..] == a[1..] + "\n" + b;
      SplitAround(a[1..], b);
    }
  }

  /** Joining newline-free lines and splitting again gives the lines back
      (Python: `"\n".join(xs).split("\n") == xs` for non-empty `xs`). */
  lemma {:induction false} SplitJoin(lines: seq<string>)
    requires |lines| >= 1
    requires forall k :: 0 <= k < |lines| ==> '\n' !in lines[k]
    ensures SplitLines(JoinLines(lines)) == lines
    decreases |lines|
  {
    if |lines| == 1 {
      SplitSingle(lines[0]);
    } else {
      SplitAround(lines[0], JoinLines(lines[1..]));
      SplitSingle(lines[0]);
      SplitJoin(lines[1..]);
      assert lines == [lines[0]] + lines[1..];
    }
  }

  // ---- Whitespace ----

  /** Python's `str.isspace()` for one character: the characters `str.strip()`
      removes when called without an argument. */
  predicate IsSpace(c: char)
  {
    || ('\t' <= c <= '\r')                  // tab, line feed, vertical tab, form feed, carriage return
    || ('\U{1c}' <= c <= '\U{1f}')           // file, group, record and unit separators
    || c == ' ' || c == '\U{85}' || c == '\U{a0}' || c == '\U{1680}'
    || ('\U{2000}' <= c <= '\U{200a}')
    || c == '\U{2028}' || c == '\U{2029}' || c == '\U{202f}' || c == '\U{205f}' || c == '\U{3000}'
  }

  predicate AllSpace(s: string)
  {
    forall k :: 0 <= k < |s| ==> IsSpace(s[k])
  }

  /** `s.lstrip()`: the suffix of `s` left after its leading whitespace. */
  function TrimStart(s: string): (r: string)
    ensures |r| <= |s| && r == s[|s| - |r|..]
    ensures AllSpace(s[..|s| - |r|])
    ensures |r| > 0 ==> !IsSpace(r[0])
  {
    if |s| > 0 && IsSpace(s[0]) then TrimStart(s[1..]) else s
  }

  /** `s.rstrip()`: the prefix of `s` left before its trailing whitespace. */
  function TrimEnd(s: string): (r: string)
    ensures |r| <= |s| && r == s[..|r|]
    ensures AllSpace(s[|r|..])
    ensures |r| > 0 ==> !IsSpace(r[|r| - 1])
  {
    if |s| > 0 && IsSpace(s[|s| - 1]) then TrimEnd(s[..|s| - 1]) else s
  }

  /** `s.strip()`: `s` with its leading and trailing whitespace cut off.
      The result is a piece of `s`, everything around it is whitespace,
      and it neither starts nor ends with whitespace. */
  function Strip(s: string): (r: string)
    ensures |r| <= |s|
    ensures exists i :: 0 <= i <= |s| - |r| && s[i..i + |r|] == r && AllSpace(s[..i]) && AllSpace(s[i + |r|..])
    ensures |r| > 0 ==> !IsSpace(r[0]) && !IsSpace(r[|r| - 1])
    ensures r == "" <==> AllSpace(s)
  {
    var t := TrimStart(s);
    var r := TrimEnd(t);
    var i := |s| - |t|;
    StripPieces(s, t, r, i);
    assert |r| > 0 ==> r[0] == t[0];
    assert 0 <= i <= |s| - |r| && s[i..i + |r|] == r && AllSpace(s[..i]) && AllSpace(s[i + |r|..]);
    r
  }

  /** The facts `Strip` promises, from the facts the two trims promise. */
  lemma StripPieces(s: string, t: string, r: string, i: nat)
    requires i <= |s| && t == s[i..] && AllSpace(s[..i])
    requires |t| > 0 ==> !IsSpace(t[0])
    requires |r| <= |t| && r == t[..|r|] && AllSpace(t[|r|..])
    ensures s[i..i + |r|] == r && AllSpace(s[i + |r|..])
    ensures r == "" <==> AllSpace(s)
  {
    assert s[i + |r|..] == t[|r|..];
    if r == "" {
      assert t[|r|..] == t;
      SpaceConcat(s[..i], t);
      assert s == s[..i] + t;
    }
  }

  lemma SpaceConcat(a: string, b: string)
    requires AllSpace(a) && AllSpace(b)
    ensures AllSpace(a + b)
  {
    assert forall k :: 0 <= k < |a + b| ==> (a + b)[k] == if k < |a| then a[k] else b[k - |a|];
  }

  /** Text that already has no surrounding whitespace is left as it is. */
  lemma StripKeepsTrimmed(s: string)
    requires |s| > 0 ==> !IsSpace(s[0]) && !IsSpace(s[|s| - 1])
    ensures Strip(s) == s
  {
  }

  /** Stripping twice is stripping once. */
  lemma StripIdempotent(s: string)
    ensures Strip(Strip(s)) == Strip(s)
  {
    StripKeepsTrimmed(Strip(s));
  }

  // ---- Integers ----

  predicate IsDigit(c: char)
  {
    '0' <= c <= '9'
  }

  predicate AllDigits(s: string)
  {
    forall k :: 0 <= k < |s| ==> IsDigit(s[k])
  }

  function DigitChar(d: nat): char
    requires d < 10
  {
    "0123456789"[d]
  }

  /** Decimal digits of `n`, most significant first, without leading zeros. */
  function NatToDigits(n: nat): string
  {
    if n < 10 then [DigitChar(n)]
    else NatToDigits(n / 10) + [DigitChar(n % 10)]
  }

  /** The value of a run of decimal digits. */
  function DigitsToNat(s: string): nat
    requires AllDigits(s)
  {
    if |s| == 0 then 0
    else DigitsToNat(s[..|s| - 1]) * 10 + (s[|s| - 1] as int - '0' as int)
  }

  /** Python's `str(n)` (equivalently `f"{n}"`) for an `int`: a minus sign for
      negatives, then the decimal digits. */
  function IntToString(n: int): (r: string)
    ensures |r| > 0
    ensures forall k :: 0 <= k < |r| ==> IsDigit(r[k]) || (k == 0 && r[k] == '-')
    ensures r[0] == '-' <==> n < 0
    ensures n >= 0 && |r| > 1 ==> r[0] != '0'
    ensures n < 0 ==> |r| > 1 && r[1] != '0'
  {
    DigitsAreDigits(if n < 0 then -n else n);
    LeadingDigit(if n < 0 then -n else n);
    if n < 0 then "-" + NatToDigits(-n) else NatToDigits(n)
  }

  /** Reads back a rendered integer: an optional minus sign followed by at
      least one digit. */
  function ParseInt(s: string): Option<int>
  {
    if |s| > 1 && s[0] == '-' && AllDigits(s[1..]) then Some(0 - DigitsToNat(s[1..]))
    else if |s| > 0 && AllDigits(s) then Some(DigitsToNat(s))
    else None
  }

  lemma {:induction false} DigitsAreDigits(n: nat)
    ensures |NatToDigits(n)| > 0 && AllDigits(NatToDigits(n))
  {
    if n >= 10 {
      DigitsAreDigits(n / 10);
    }
  }

  /** The digits of `n` start with `0` only for `n` zero itself, which is
      the single digit `0`: there are no leading zeros. */
  lemma {:induction false} LeadingDigit(n: nat)
    ensures |NatToDigits(n)| > 0
    ensures NatToDigits(n)[0] == '0' <==> n == 0
    ensures n == 0 <==> NatToDigits(n) == "0"
  {
    if n >= 10 {
      LeadingDigit(n / 10);
    }
  }

  lemma {:induction false} DigitsRoundTrip(n: nat)
    ensures AllDigits(NatToDigits(n)) && DigitsToNat(NatToDigits(n)) == n
  {
    DigitsAreDigits(n);
    if n >= 10 {
      DigitsRoundTrip(n / 10);
      var s := NatToDigits(n);
      assert s[..|s| - 1] == NatToDigits(n / 10);
    }
  }

  /** Rendering an integer and reading it back gives the same integer, so
      distinct integers render to distinct texts. */
  lemma IntRoundTrip(n: int)
    ensures ParseInt(IntToString(n)) == Some(n)
  {
    if n < 0 {
      DigitsRoundTrip(-n);
      assert IntToString(n)[1..] == NatToDigits(-n);
    } else {
      DigitsRoundTrip(n);
    }
  }
}

=== FILE: workspace.dfy ===
/** Deleting the temporary workspace: `shutil.rmtree` with an error handler
    that, when removing an entry fails, makes the entry owner-writable and
    calls the same removal on it once more. A failure inside the handler
    propagates and ends the deletion. */
module Workspace {
  import opened Results
  import opened Effects

  /** How one file-system call went. */
  datatype Attempt = Done | Denied(message: string)

  /** How the host responds while one entry is deleted: the removal call
      `rmtree` makes, the handler's `chmod`, and the handler's repeat of the
      removal. Only as many of these are consulted as the handler reaches.
      The "removal" of an entry stands for whichever file-system call
      `rmtree` handed to the error handler for it: listing, opening or
      stat-ing a directory as well as unlinking a file or removing an empty
      directory. The handler repeats that same call. */
  datatype Attempts = Attempts(remove: Attempt, chmod: Attempt, retry: Attempt)

  /** One entry of the workspace, in the order `rmtree` removes them
      (contents before the directory that holds them). */
  datatype Entry = Entry(path: string, attempts: Attempts)

  /** The entry ends up removed: at once, or by the handler's single retry. */
  predicate Recoverable(a: Attempts)
  {
    a.remove.Done? || (a.chmod.Done? && a.retry.Done?)
  }

  /** Number of removal calls in a trace. */
  function RemoveCalls(trace: seq<Event>): nat
  {
    if |trace| == 0 then 0
    else (if trace[0].IsRemoveCall() then 1 else 0) + RemoveCalls(trace[1..])
  }

  /** Deleting one entry. It is removed exactly when it is recoverable; the
      removal is called at most twice, and a second time exactly when the
      first call failed and the entry was then made writable; when the
      deletion fails, the error raised is that of the last call made. */
  function RemoveEntry(e: Entry): (r: (Outcome<Failure>, seq<Event>))
    ensures r.0.Pass? <==> Recoverable(e.attempts)
    ensures |r.1| > 0 && forall k :: 0 <= k < |r.1| ==> r.1[k].IsRemoval() && r.1[k].path == e.path
    ensures r.1[0] == (if e.attempts.remove.Done? then Removed(e.path) else RemoveFailed(e.path))
    ensures r.0.Pass? <==> r.1[|r.1| - 1] == Removed(e.path)
    ensures r.0.Fail? ==> !r.1[|r.1| - 1].Removed?
    ensures RemoveCalls(r.1) <= 2
    ensures RemoveCalls(r.1) == 2 <==> e.attempts.remove.Denied? && e.attempts.chmod.Done?
    ensures RemoveCalls(r.1) == 2 ==> r.1[1] == MadeWritable(e.path)
    ensures |r.1| == (if e.attempts.remove.Done? then 1 else if e.attempts.chmod.Denied? then 2 else 3)
    ensures e.attempts.remove.Denied? ==> r.1[1] == (if e.attempts.chmod.Done? then MadeWritable(e.path) else ChmodFailed(e.path))
    ensures r.0.Fail? ==> r.0.error == Raised(if e.attempts.chmod.Denied? then e.attempts.chmod.message else e.attempts.retry.message)
  {
    var p := e.path;
    var a := e.attempts;
    if a.remove.Done? then (Pass, [Removed(p)])
    else if a.chmod.Denied? then
      var t := [RemoveFailed(p), ChmodFailed(p)];
      assert RemoveCalls(t[1..]) == 0 by { assert t[1..][1..] == []; }
      (Fail(Raised(a.chmod.message)), t)
    else
      var t := [RemoveFailed(p), MadeWritable(p), if a.retry.Done? then Removed(p) else RemoveFailed(p)];
      assert RemoveCalls(t[1..][1..]) == RemoveCalls([t[2]]) == 1 by { assert [t[2]][1..] == []; }
      assert RemoveCalls(t[1..]) == 1;
      (if a.retry.Done? then Pass else Fail(Raised(a.retry.message)), t)
  }

  /** The traces of deleting `entries`, one after another. */
  function EntryTraces(entries: seq<Entry>): seq<Event>
  {
    if |entries| == 0 then [] else RemoveEntry(entries[0]).1 + EntryTraces(entries[1..])
  }

  /** How many entries `rmtree` reaches: all of them, or those up to and
      including the first one that cannot be removed. */
  function Reached(entries: seq<Entry>): (n: nat)
    ensures n <= |entries| && (|entries| > 0 ==> n > 0)
    ensures forall j :: 0 <= j < n - 1 ==> Recoverable(entries[j].attempts)
    ensures n < |entries| ==> !Recoverable(entries[n - 1].attempts)
  {
    if |entries| == 0 then 0
    else if !Recoverable(entries[0].attempts) then 1
    else
      assert forall j :: 1 <= j < |entries| ==> entries[j] == entries[1..][j - 1];
      1 + Reached(entries[1..])
  }

  /** `rmtree` over the entries: each in turn, stopping at the first entry
      that cannot be removed. The deletion passes exactly when every entry is
      recoverable; its trace is the entry traces of the entries it reached;
      when it fails, the error is that of the last entry reached. */
  function RemoveTree(entries: seq<Entry>): (r: (Outcome<Failure>, seq<Event>))
    ensures r.1 == EntryTraces(entries[..Reached(entries)])
    ensures r.0.Pass? <==> forall k :: 0 <= k < |entries| ==> Recoverable(entries[k].attempts)
    ensures r.0.Fail? ==> r.0 == RemoveEntry(entries[Reached(entries) - 1]).0
  {
    if |entries| == 0 then
      assert entries[..0] == [];
      (Pass, [])
    else
      var first := RemoveEntry(entries[0]);
      if first.0.Fail? then
        assert entries[..1] == [entries[0]];
        assert EntryTraces(entries[..1]) == first.1 + EntryTraces([]);
        first
      else
        var rest := RemoveTree(entries[1..]);
        var m := Reached(entries[1..]);
        assert entries[..m + 1][1..] == entries[1..][..m];
        assert EntryTraces(entries[..m + 1]) == first.1 + rest.1;
        assert forall k :: 1 <= k < |entries| ==> entries[k] == entries[1..][k - 1];
        (rest.0, first.1 + rest.1)
  }

  /** Every event of the entry traces belongs to the deletion phase, and they
      begin with the first entry's first removal call. */
  lemma {:induction false} EntryTracesAreRemovals(es: seq<Entry>)
    ensures forall k :: 0 <= k < |EntryTraces(es)| ==> EntryTraces(es)[k].IsRemoval()
    ensures |es| > 0 ==> |EntryTraces(es)| > 0 && EntryTraces(es)[0] == RemoveEntry(es[0]).1[0]
  {
    if |es| > 0 {
      EntryTracesAreRemovals(es[1..]);
      var h := RemoveEntry(es[0]).1;
      var t := EntryTraces(es[1..]);
      assert forall k :: 0 <= k < |h + t| ==> (h + t)[k] == if k < |h| then h[k] else t[k - |h|];
    }
  }

  /** The entry traces end with the last entry's trace. */
  lemma {:induction false} EntryTracesEnd(es: seq<Entry>)
    requires |es| > 0
    ensures EntryTraces(es) == EntryTraces(es[..|es| - 1]) + RemoveEntry(es[|es| - 1]).1
  {
    if |es| > 1 {
      EntryTracesEnd(es[1..]);
      assert es[1..][..|es[1..]| - 1] == es[..|es| - 1][1..];
      assert es[1..][|es[1..]| - 1] == es[|es| - 1];
    } else {
      assert es[..0] == [];
    }
  }

  /** Deleting the workspace `dir`: its contents, then the directory itself.
      The deletion passes exactly when every entry and the directory are
      recoverable, and then its last event is the removal of `dir`; it always
      begins with a removal call, so it is attempted on every path. */
  function Release(dir: string, contents: seq<Entry>, root: Attempts): (r: (Outcome<Failure>, seq<Event>))
    ensures |r.1| > 0 && r.1[0].IsRemoveCall()
    ensures forall k :: 0 <= k < |r.1| ==> r.1[k].IsRemoval()
    ensures r.0.Pass? <==> (forall k :: 0 <= k < |contents| ==> Recoverable(contents[k].attempts)) && Recoverable(root)
    ensures r.0.Pass? <==> r.1[|r.1| - 1] == Removed(dir)
  {
    var entries := contents + [Entry(dir, root)];
    assert forall k :: 0 <= k < |contents| ==> entries[k] == contents[k];
    ReleaseTrace(entries);
    RemoveTree(entries)
  }

  /** The first and last events of deleting a non-empty list of entries. */
  lemma ReleaseTrace(entries: seq<Entry>)
    requires |entries| > 0
    ensures var r := RemoveTree(entries);
      && |r.1| > 0 && r.1[0].IsRemoveCall()
      && (forall k :: 0 <= k < |r.1| ==> r.1[k].IsRemoval())
      && (r.0.Pass? <==> r.1[|r.1| - 1] == Removed(entries[|entries| - 1].path))
  {
    var r := RemoveTree(entries);
    var n := Reached(entries);
    var reached := entries[..n];
    assert r.1 == EntryTraces(reached);
    EntryTracesAreRemovals(reached);
    assert reached[0] == entries[0];
    LastEventOfTraces(reached);
    assert reached[n - 1] == entries[n - 1];
    if r.0.Pass? {
      assert n == |entries|;
    }
  }

  /** The last event of the entry traces is the last entry's last event; it
      is a successful removal exactly when that entry is recoverable. */
  lemma LastEventOfTraces(es: seq<Entry>)
    requires |es| > 0
    ensures |EntryTraces(es)| > 0
    ensures var t := EntryTraces(es); var e := es[|es| - 1];
      && (Recoverable(e.attempts) ==> t[|t| - 1] == Removed(e.path))
      && (!Recoverable(e.attempts) ==> !t[|t| - 1].Removed?)
  {
    EntryTracesEnd(es);
    var lastTrace := RemoveEntry(es[|es| - 1]).1;
    var t := EntryTraces(es);
    assert t[|t| - 1] == lastTrace[|lastTrace| - 1];
  }
}
